=== FILE: README.md ===
# Harbor artifact processor and image replication status, in Dafny

This project models two parts of Harbor, the container registry.

The first is the **default artifact processor**. It covers four operations:

- It classifies an artifact by its media type: the pattern
  `application/vnd.<vendor>.<type>.config.<version>+json` yields `<TYPE>` upper-cased, and anything else yields `UNKNOWN`.
- It abstracts the artifact's config blob into the artifact's `ExtraAttrs` map.
- It reads the optional self-description stored under the reserved config key `xHarborAttributes` (schema version 1). A version-1 self-description lists keys to redact and names side payloads called *additions*.
- It lists the declared additions and resolves one addition by name to its bytes and content type.

The second part is the **image replication API**:

- It converts job statuses and aggregates them into an overall `Processing` / `Failed` / `Succeed`.
- It validates an image list and builds the replication candidates for it.
- It turns the generated UUID into an operation id.
- It validates the `Replication` request model.

Everything is modelled as pure functions over immutable data, with one exception: the three loops that the proofs are about are written as methods with loop invariants. These are the addition scan (`Processor.ScanAdditions`), the status aggregation (`ImageReplicate.Status`) and the image check that builds the candidates (`ImageReplicate.Replicate`). JSON values are a datatype (`Json.Value`).

The processor's collaborators are passed in as plain functions (`Processor.Collaborators`):

- the manifest parser;
- the registry's blob download, which looks up a blob by repository and digest;
- the config decoder.

The replication API is handled the same way:

- the job list is an argument;
- image validity is a predicate argument;
- the generated UUID is an argument.

Modules: `Results` (Option/Result), `Json`, `Text` (the pieces of Go's `strings` and `fmt` used), `SchemaV1`, `MediaTypePattern`, `Processor`, `JobModels`, `ReplicationModels`, `ImageReplicate`.

Three behaviours of the code that are easy to misread:

- **Last match wins.** Additions are resolved by the *last* declaration with the requested name, because the scan never stops early. A last match with an empty digest is refused, even when an earlier entry with the same name has a digest.
- **Version mismatch leaves the full config.** After a failed version check, `ExtraAttrs` holds the full, unredacted config. The code stores the config before it validates the self-description.
- **Only the embedded dialect is processed.** `v1alpha/annotations.go` declares two annotation keys that the default processor never reads.

## Model

| member | source | states |
|---|---|---|
| MediaTypePattern.Decompose | src/controller/artifact/processor/default.go:43 | a match of the media-type pattern yields parts: a dot-free vendor, a newline-free capture and a dot-free version. Those parts rebuild the input exactly. |
| MediaTypePattern.DecomposeComplete | src/controller/artifact/processor/default.go:43 | every string of the pattern's language is matched, and matched with exactly the parts it was built from, so the capture is unique |
| MediaTypePattern.DecomposeIff | src/controller/artifact/processor/default.go:43 | `Decompose(s) == Some(p)` if and only if `p` is well-formed and `s` is built from `p` |
| Processor.GetArtifactType | src/controller/artifact/processor/default.go:52-60 | a media type built from well-formed parts is classified as the upper-cased capture. Every other media type is `UNKNOWN`, so classification is total. |
| Processor.ArtifactTypeOfComposed | src/controller/artifact/processor/default.go:52-57 | the capture of any media type of the pattern is reported upper-cased |
| Processor.UnknownArtifactTypes | src/controller/artifact/processor/default_test.go:540-550 | `""` and `"unknown"` are classified `UNKNOWN` |
| Processor.OciImageType | src/controller/artifact/processor/default_test.go:552-556 | the OCI image config media type is classified `IMAGE` |
| Processor.HelmChartType | src/controller/artifact/processor/default_test.go:558-562 | the Helm chart config is classified `HELM.CHART`: the capture keeps its inner dot |
| Processor.OrmbModelType | src/controller/artifact/processor/default_test.go:570-574 | the ormb model config, with version `v1alpha1`, is classified `MODEL` |
| Text.ToUpperNormalises | src/controller/artifact/processor/default.go:56 | the upper-cased type holds no lower-case ASCII letter, keeps every other character, and is unchanged by upper-casing again |
| SchemaV1.DecodeSchema | src/controller/artifact/processor/default.go:114-118 | A null self-description decodes to the zero schema (version 0, nothing declared). A value that is neither an object nor null does not decode. An object decodes exactly when each of its four fields does, and each field of the result is that field's own decoding. |
| SchemaV1.DecodeAdditionElems | src/controller/artifact/schema/v1/schema.go:44-45 | an additions list decodes exactly when every element does. Decoding keeps the length and order, and each element decodes independently. |
| SchemaV1.DecodeStringElems | src/controller/artifact/schema/v1/schema.go:46-48 | a skip list decodes exactly when every element is a string or null. Decoding keeps the length and order. |
| SchemaV1.SchemaRoundTrip | src/controller/artifact/schema/v1/schema.go:39-59 | every schema written as JSON with its field names and `omitempty` rules reads back unchanged |
| SchemaV1.AdditionElemsRoundTrip | src/controller/artifact/schema/v1/schema.go:51-59 | a list of `(contentType, name, digest)` triples survives encoding and decoding |
| SchemaV1.StringElemsRoundTrip | src/controller/artifact/schema/v1/schema.go:46-48 | a skip list survives encoding and decoding |
| SchemaV1.ExampleSchemaDecodes | src/controller/artifact/schema/v1/schema.go:14-34 | the documented example, written out as the JSON object it is, decodes to version 1 with its icon, additions `yaml` then `readme` with their content types and digests, and the skip list `metrics`, `dataset` |
| Processor.FetchConfig | src/controller/artifact/processor/default.go:83-102 | the config blob is pulled from the artifact's own repository at the manifest's config digest. A manifest that does not parse gives the malformed-manifest error. A registry error is returned as `RegistryError` with the registry's own text. A blob that does not decode gives the malformed-config error. |
| Processor.AbstractMetadata | src/controller/artifact/processor/default.go:79-133 | For a manifest type other than OCI or Docker schema 2, the artifact is unchanged and there is no error. A fetch failure is returned and the artifact is unchanged. Without the reserved key, `ExtraAttrs` is the decoded config exactly. A self-description that does not decode gives `UnsupportedSchema` and leaves the full config. A version other than 1 gives `UnsupportedSchemaVersion(v)` and leaves the full config. Version 1 succeeds with config minus the skip keys. No field other than `ExtraAttrs` ever changes. |
| Processor.DeleteKeys | src/controller/artifact/processor/default.go:125-130 | deleting the skip keys one by one leaves the map minus the set of skip keys. Absent keys are no-ops. |
| Processor.DeleteKeysSize | src/controller/artifact/processor/default.go:125-130 | the size drops by exactly the number of skip keys the map holds |
| Processor.SuccessfulAbstraction | src/controller/artifact/processor/default.go:107-130 | after a version-1 success, a key is present exactly when the config has it and the skip list does not name it, and it keeps its value. This holds for `xHarborAttributes` too. The count is the config's size minus the skip keys present. |
| Processor.EmptySkipListKeepsAll | src/controller/artifact/processor/default_test.go:594-611 | an empty or missing skip list removes nothing |
| Processor.UnsupportedVersionKeepsFullConfig | src/controller/artifact/processor/default.go:107-123 | a version other than 1 fails with `UnsupportedSchemaVersion(v)`, and the version can be read back from the message. `ExtraAttrs` holds the full, unredacted config. |
| Processor.VersionMessageNamesVersion | src/controller/artifact/processor/default.go:122 | the version error's message is the fixed prefix followed by the version, written so that it reads back to the same integer |
| Text.FormatIntRoundTrip | src/controller/artifact/processor/default.go:122 | the `%d` rendering of any integer parses back to it |
| Processor.VersionTwoMessage | src/controller/artifact/processor/default_test.go:616-618 | version 2 is reported as `unsupported artifact config schema version 2` |
| Processor.AdditionNames | src/controller/artifact/processor/default.go:73-76 | one name per addition, in declaration order |
| Processor.ListAdditionTypes | src/controller/artifact/processor/default.go:61-78 | never fails. A missing or undecodable self-description lists nothing. Otherwise it lists the name of every declared addition, in order. |
| Processor.LastNamed | src/controller/artifact/processor/default.go:155-160 | finds the index of an addition with the name, with no later one of that name, or reports that none has the name |
| Processor.ScanAdditions | src/controller/artifact/processor/default.go:149-160 | the scan without `break` ends with the content type and digest of the last addition with the name, or two empty strings when none matches |
| Processor.LastDeclarationWins | src/controller/artifact/processor/default.go:155-160 | of several additions with one name, the last one decides |
| Processor.AbstractAddition | src/controller/artifact/processor/default.go:134-182 | A missing reserved key is a bad request with the "no addition defined" message. An undecodable self-description is a bad request. A name that is not declared is a bad request. A last match with an empty digest is a bad request. Otherwise the result is the blob at that digest in the artifact's own repository, with that entry's content type. A registry error is returned as `RegistryError` with the registry's own text. |
| Processor.ResolvableAdditionsAreListed | src/controller/artifact/processor/default.go:154-165 | every addition that resolves is among the listed addition types |
| Processor.UnlistedAdditionsAreBadRequests | src/controller/artifact/processor/default.go:162-165 | asking for a name that is not listed is always a bad request |
| Processor.AbstractedAdditionsAreListed | src/controller/artifact/processor/default.go:61-77 | after a version-1 abstraction whose skip list spares the reserved key, the listed additions are exactly the declared ones |
| Processor.ExampleSchemaAdditions | src/controller/artifact/schema/v1/schema.go:14-34 | with the example stored under the reserved key, the listed additions are `yaml` then `readme`. `readme` resolves to the blob at its digest in the artifact's repository. `icon` is refused. |
| ReplicationModels.AggregateStatusesDistinct | src/core/api/models/replication.go:21-28 | `Succeed`, `Failed` and `Processing` are pairwise distinct |
| ReplicationModels.Valid | src/core/api/models/replication.go:65-69 | an error is recorded exactly when the policy id is at most 0. It is recorded only under `policy_id` with "invalid value", and earlier errors are kept. |
| ReplicationModels.ValidBoundary | src/core/api/models/replication.go:66 | policy id 1 passes and 0 is rejected |
| ImageReplicate.ConvertStatus | src/core/api/image_replicate.go:122-136 | Running, Pending and Retrying map to `Processing`. Error, Stopped and Canceled map to `Failed`. Every other status maps to `Succeed`, so the result is always one of the three. |
| ImageReplicate.Status | src/core/api/image_replicate.go:91-116 | no jobs is not-found with no aggregate. Otherwise there is one entry per job in query order, holding `repository:tags` and the raw status. The overall status is Processing if any job is processing, else Failed if any failed, else Succeed. |
| ImageReplicate.OverallStatusOrderIndependent | src/core/api/image_replicate.go:99-116 | any reordering of the jobs gives the same overall status |
| ImageReplicate.OverallStatusOfConcat | src/core/api/image_replicate.go:99-116 | the overall status of two job lists together is the worse of their separate statuses |
| ImageReplicate.Replicate | src/core/api/image_replicate.go:42-74 | The request fails exactly when some image is invalid. The error names the first invalid image. Otherwise there is one candidate per image, in order, with the image, kind tag and operation transfer. The operation id is the UUID with every `-` removed. It is published with policy id -1, marked independent, and returned in the response. |
| Text.RemoveChar | src/core/api/image_replicate.go:55 | no `-` is left, and hyphen-free text is unchanged |
| Text.RemoveCharCounts | src/core/api/image_replicate.go:55 | only the hyphens are removed. Every other character keeps its number of occurrences. |
| Text.RemoveCharAppend | src/core/api/image_replicate.go:55 | hyphen removal distributes over concatenation |
| ImageReplicate.OperationIdOfCanonicalUuid | src/core/api/image_replicate.go:55 | for a UUID in the 8-4-4-4-12 form of section 3 of RFC 4122, the operation id is its 32 hex digits in order |

## Left out

- **Byte-level JSON.** Parsing the manifest and decoding the config blob are function parameters. Their failures are the opaque errors `ManifestMalformed` and `ConfigMalformed`, and their error texts are not modelled.
- **The registry client.** `PullBlob` together with `ReadAll` is a single function parameter from repository and digest to bytes or an error. Releasing the stream, logging and `context` are not modelled. In `AbstractAddition` the stream is closed only after a successful read.
- **mapstructure decoding.** It is modelled as an explicit decoder, `SchemaV1.DecodeSchema`:
  - JSON field names must match exactly, so mapstructure's case-insensitive field matching is not modelled;
  - JSON numbers are integers, so the truncation of fractional numbers into `SchemaVersion` is not modelled;
  - the decoder's error text is not modelled.
- **Numbers.** `Json.Value` numbers are mathematical integers. Floating point is not modelled.
- **Nil versus empty.** Go's difference between a nil slice or map and an empty one is not modelled.
- **The annotation-driven schema dialect** (`src/controller/artifact/schema/v1alpha/annotations.go`). That file only declares two annotation key names, and the default processor never reads them.
- **The replication target manager** (`src/replication/target/target.go`). It is a database lookup plus password decryption.
- **HTTP handler plumbing:** authentication in `Prepare`, request decoding, `ServeJSON`, and the job query `dao.GetRepJobs`. The jobs are an argument; the query's internal-server-error path is not modelled.
- **Publishing.** `notifier.Publish` is not modelled, and neither is its internal-server-error path. `Replicate` returns the notification it would publish.
- **UUID generation.** The generated UUID is an argument.
- **Image validity.** `isValidImage` relies on `ParseImage`, which is not part of this model, so it is a predicate argument.
- **Stored spellings of job statuses, the filter kind `tag` and the operation `transfer`.** They are declared in the `common/models` and `replication` packages, which are not modelled, so they are enumerations here.
- ImageReplicate.ConvertStatus: `JobModels.Other(raw)` stands for any status other than the six named ones. The model does not exclude a `raw` that spells one of them.
- Text.ToUpper: upper-cases ASCII letters only. Go's `strings.ToUpper` also maps non-ASCII letters.
- **The key count at `src/controller/artifact/processor/default_test.go:586` is not encoded.** It asserts 12 keys, but the config used there has 13 top-level keys and no self-description. By `Processor.AbstractMetadata` that config is kept whole, so the model makes no claim of 12.

=== FILE: image_replicate.dfy ===
/** The image replication API: starting a replication of a list of images,
    and reporting the aggregate status of the jobs it spawned. The job query,
    the notifier, the UUID generator and image parsing are passed in. */
module ImageReplicate {
  import opened Results
  import opened Text
  import opened JobModels
  import opened ReplicationModels

  datatype ApiError =
    | BadRequest(message: string)
    | NotFound(message: string)

  /* ---------- status aggregation ---------- */

  /** Folds one job status into one of the three aggregate statuses. */
  function ConvertStatus(s: JobStatus): (r: string)
    ensures r == ReplicateSucceed || r == ReplicateFailed || r == ReplicateProcessing
    ensures r == ReplicateProcessing <==> s.Running? || s.Pending? || s.Retrying?
    ensures r == ReplicateFailed <==> s.Error? || s.Stopped? || s.Canceled?
    ensures r == ReplicateSucceed <==> s.Other?
  {
    if s == Running || s == Pending || s == Retrying then ReplicateProcessing
    else if s == Error || s == Stopped || s == Canceled then ReplicateFailed
    else ReplicateSucceed
  }

  predicate SomeJobConvertsTo(jobs: seq<RepJob>, aggregate: string) {
    exists i :: 0 <= i < |jobs| && ConvertStatus(jobs[i].status) == aggregate
  }

  /** The overall status by precedence: Processing over Failed over Succeed. */
  function OverallStatus(jobs: seq<RepJob>): string {
    if SomeJobConvertsTo(jobs, ReplicateProcessing) then ReplicateProcessing
    else if SomeJobConvertsTo(jobs, ReplicateFailed) then ReplicateFailed
    else ReplicateSucceed
  }

  /** How a job shows up in the status report. */
  function ImageOf(job: RepJob): string {
    job.repository + ":" + job.tags
  }

  function NoJobsMessage(uuid: string): string {
    "no jobs found for " + uuid
  }

  /** Reports the jobs of one operation: one entry per job in query order,
      with its raw status, and the overall status; no jobs is not found. */
  method Status(uuid: string, jobs: seq<RepJob>) returns (r: Result<ImagesReplicationStatus, ApiError>)
    ensures jobs == [] ==> r == Failure(NotFound(NoJobsMessage(uuid)))
    ensures jobs != [] ==> r.Success?
    ensures r.Success? ==> r.value.status == OverallStatus(jobs)
    ensures r.Success? ==> |r.value.jobsStatus| == |jobs|
    ensures r.Success? ==> forall i :: 0 <= i < |jobs| ==>
              r.value.jobsStatus[i] == ImageRepStatus(ImageOf(jobs[i]), jobs[i].status)
  {
    if |jobs| == 0 {
      return Failure(NotFound(NoJobsMessage(uuid)));
    }
    var entries: seq<ImageRepStatus> := [];
    var hasProcessing, hasFailed := false, false;
    var k := 0;
    while k < |jobs|
      invariant 0 <= k <= |jobs|
      invariant |entries| == k
      invariant forall i :: 0 <= i < k ==> entries[i] == ImageRepStatus(ImageOf(jobs[i]), jobs[i].status)
      invariant hasProcessing <==> SomeJobConvertsTo(jobs[..k], ReplicateProcessing)
      invariant hasFailed <==> SomeJobConvertsTo(jobs[..k], ReplicateFailed)
    {
      assert forall i :: 0 <= i < k ==> jobs[..k + 1][i] == jobs[..k][i];
      assert jobs[..k + 1][k] == jobs[k];
      entries := entries + [ImageRepStatus(ImageOf(jobs[k]), jobs[k].status)];
      var s := ConvertStatus(jobs[k].status);
      if s == ReplicateProcessing {
        hasProcessing := true;
      } else if s == ReplicateFailed {
        hasFailed := true;
      }
      k := k + 1;
    }
    assert jobs[..k] == jobs;
    var status := ReplicateSucceed;
    if hasProcessing {
      status := ReplicateProcessing;
    } else if hasFailed {
      status := ReplicateFailed;
    }
    return Success(ImagesReplicationStatus(status, entries));
  }

  /** The overall status does not depend on the order the jobs come in. */
  lemma OverallStatusOrderIndependent(a: seq<RepJob>, b: seq<RepJob>)
    requires multiset(a) == multiset(b)
    ensures OverallStatus(a) == OverallStatus(b)
  {
    forall aggregate: string
      ensures SomeJobConvertsTo(a, aggregate) <==> SomeJobConvertsTo(b, aggregate)
    {
      SameElementsConvertAlike(a, b, aggregate);
      SameElementsConvertAlike(b, a, aggregate);
    }
  }

  lemma SameElementsConvertAlike(a: seq<RepJob>, b: seq<RepJob>, aggregate: string)
    requires multiset(a) == multiset(b)
    ensures SomeJobConvertsTo(a, aggregate) ==> SomeJobConvertsTo(b, aggregate)
  {
    if SomeJobConvertsTo(a, aggregate) {
      var i :| 0 <= i < |a| && ConvertStatus(a[i].status) == aggregate;
      assert a[i] in multiset(b);
      var j :| 0 <= j < |b| && b[j] == a[i];
    }
  }

  /** The status of a batch of jobs is the worse of the statuses of its
      parts, so reports on partial job lists combine. */
  function Worse(x: string, y: string): string {
    if x == ReplicateProcessing || y == ReplicateProcessing then ReplicateProcessing
    else if x == ReplicateFailed || y == ReplicateFailed then ReplicateFailed
    else ReplicateSucceed
  }

  lemma OverallStatusOfConcat(a: seq<RepJob>, b: seq<RepJob>)
    ensures OverallStatus(a + b) == Worse(OverallStatus(a), OverallStatus(b))
  {
    forall aggregate: string
      ensures SomeJobConvertsTo(a + b, aggregate) <==> SomeJobConvertsTo(a, aggregate) || SomeJobConvertsTo(b, aggregate)
    {
      if SomeJobConvertsTo(a, aggregate) {
        var i :| 0 <= i < |a| && ConvertStatus(a[i].status) == aggregate;
        assert (a + b)[i] == a[i];
      }
      if SomeJobConvertsTo(a + b, aggregate) {
        var i :| 0 <= i < |a + b| && ConvertStatus((a + b)[i].status) == aggregate;
        if i >= |a| {
          assert (a + b)[i] == b[i - |a|];
        }
      }
      if SomeJobConvertsTo(b, aggregate) {
        var i :| 0 <= i < |b| && ConvertStatus(b[i].status) == aggregate;
        assert (a + b)[|a| + i] == b[i];
      }
    }
  }

  /* ---------- starting a replication ---------- */

  datatype FilterItemKind = KindTag
  datatype RepOperation = OpTransfer

  /** One replication candidate: an image, to be transferred by tag. */
  datatype FilterItem = FilterItem(kind: FilterItemKind, value: string, operation: RepOperation)

  /** The payload published to start an independent replication. */
  datatype StartReplicationNotification = StartReplicationNotification(
    policyId: int,
    opUuid: string,
    independent: bool,
    candidates: seq<FilterItem>,
    targets: seq<string>)

  /** What a started replication produces: the published notification and
      the response naming the operation. */
  datatype Started = Started(notification: StartReplicationNotification, response: ImagesReplicationRsp)

  function MalformedImageMessage(image: string): string {
    "malfold image '" + image + "'"
  }

  /** Validates the images in order, stopping at the first malformed one,
      and builds one tag-transfer candidate per image; the operation id is
      the generated UUID with its hyphens removed. */
  method Replicate(req: ImagesReplication, isValidImage: string -> bool, generatedUuid: string)
    returns (r: Result<Started, ApiError>)
    ensures r.Failure? <==> exists i :: 0 <= i < |req.images| && !isValidImage(req.images[i])
    ensures r.Failure? ==> exists i ::
              && 0 <= i < |req.images|
              && !isValidImage(req.images[i])
              && (forall j :: 0 <= j < i ==> isValidImage(req.images[j]))
              && r.error == BadRequest(MalformedImageMessage(req.images[i]))
    ensures r.Success? ==> |r.value.notification.candidates| == |req.images|
    ensures r.Success? ==> forall i :: 0 <= i < |req.images| ==>
              r.value.notification.candidates[i] == FilterItem(KindTag, req.images[i], OpTransfer)
    ensures r.Success? ==> '-' !in r.value.notification.opUuid
    ensures r.Success? ==> r.value.notification.opUuid == RemoveChar(generatedUuid, '-')
    ensures r.Success? ==> r.value.response.uuid == r.value.notification.opUuid
    ensures r.Success? ==> r.value.notification.policyId == -1 && r.value.notification.independent
    ensures r.Success? ==> r.value.notification.targets == req.targets
  {
    var items: seq<FilterItem> := [];
    var k := 0;
    while k < |req.images|
      invariant 0 <= k <= |req.images|
      invariant |items| == k
      invariant forall j :: 0 <= j < k ==> isValidImage(req.images[j])
      invariant forall j :: 0 <= j < k ==> items[j] == FilterItem(KindTag, req.images[j], OpTransfer)
    {
      var img := req.images[k];
      if !isValidImage(img) {
        return Failure(BadRequest(MalformedImageMessage(img)));
      }
      items := items + [FilterItem(KindTag, img, OpTransfer)];
      k := k + 1;
    }
    var opUuid := RemoveChar(generatedUuid, '-');
    var notification := StartReplicationNotification(-1, opUuid, true, items, req.targets);
    return Success(Started(notification, ImagesReplicationRsp(opUuid)));
  }

  /* ---------- operation ids ---------- */

  predicate IsHexDigit(c: char) {
    '0' <= c <= '9' || 'a' <= c <= 'f' || 'A' <= c <= 'F'
  }

  predicate HexOnly(s: string) {
    forall i :: 0 <= i < |s| ==> IsHexDigit(s[i])
  }

  /** The textual form of a UUID in section 3 of RFC 4122: 8-4-4-4-12
      hexadecimal digits joined by hyphens. */
  predicate CanonicalUuid(s: string) {
    && |s| == 36
    && s[8] == '-' && s[13] == '-' && s[18] == '-' && s[23] == '-'
    && HexOnly(s[..8]) && HexOnly(s[9..13]) && HexOnly(s[14..18]) && HexOnly(s[19..23]) && HexOnly(s[24..])
  }

  lemma HexOnlyConcat(x: string, y: string)
    requires HexOnly(x) && HexOnly(y)
    ensures HexOnly(x + y)
  {
    forall i | 0 <= i < |x + y|
      ensures IsHexDigit((x + y)[i])
    {
      if i >= |x| {
        assert (x + y)[i] == y[i - |x|];
      }
    }
  }

  /** Removing hyphens from `x-y` with a hyphen-free `x` keeps `x` whole. */
  lemma {:induction false} RemoveHyphenAfter(x: string, y: string)
    requires '-' !in x
    ensures RemoveChar(x + "-" + y, '-') == x + RemoveChar(y, '-')
  {
    assert x + "-" + y == x + ("-" + y);
    RemoveCharAppend(x, "-" + y, '-');
    RemoveCharAppend("-", y, '-');
    assert RemoveChar("-", '-') == "";
  }

  lemma HexOnlyNoHyphen(s: string)
    requires HexOnly(s)
    ensures '-' !in s
  {
  }

  /** Removing hyphens from a text whose first hyphen is at `k`. */
  lemma RemoveHyphenAt(s: string, k: nat)
    requires k < |s| && s[k] == '-' && '-' !in s[..k]
    ensures RemoveChar(s, '-') == s[..k] + RemoveChar(s[k + 1..], '-')
  {
    assert s == s[..k] + "-" + s[k + 1..];
    RemoveHyphenAfter(s[..k], s[k + 1..]);
  }

  /** Hyphen removal on a canonical UUID, group by group. */
  lemma {:induction false} OperationIdPieces(s: string)
    requires CanonicalUuid(s)
    ensures RemoveChar(s, '-') == s[..8] + (s[9..13] + (s[14..18] + (s[19..23] + s[24..])))
  {
    var t1, t2, t3 := s[9..], s[14..], s[19..];
    HexOnlyNoHyphen(s[..8]);
    RemoveHyphenAt(s, 8);
    assert t1[..4] == s[9..13] && t1[5..] == t2;
    HexOnlyNoHyphen(s[9..13]);
    RemoveHyphenAt(t1, 4);
    assert t2[..4] == s[14..18] && t2[5..] == t3;
    HexOnlyNoHyphen(s[14..18]);
    RemoveHyphenAt(t2, 4);
    assert t3[..4] == s[19..23] && t3[5..] == s[24..];
    HexOnlyNoHyphen(s[19..23]);
    RemoveHyphenAt(t3, 4);
    HexOnlyNoHyphen(s[24..]);
  }

  /** An operation id made from a canonical UUID is its 32 hexadecimal
      digits, in order. */
  lemma {:induction false} OperationIdOfCanonicalUuid(s: string)
    requires CanonicalUuid(s)
    ensures RemoveChar(s, '-') == s[..8] + s[9..13] + s[14..18] + s[19..23] + s[24..]
    ensures |RemoveChar(s, '-')| == 32
    ensures HexOnly(RemoveChar(s, '-'))
  {
    var a, b, c, d, e := s[..8], s[9..13], s[14..18], s[19..23], s[24..];
    OperationIdPieces(s);
    assert a + (b + (c + (d + e))) == a + b + c + d + e;
    HexOnlyConcat(d, e);
    HexOnlyConcat(c, d + e);
    HexOnlyConcat(b, c + (d + e));
    HexOnlyConcat(a, b + (c + (d + e)));
  }
}

=== FILE: job_models.dfy ===
/** The replication job record the status query reads, and the job status
    values it distinguishes. Their string spellings are declared outside the
    code modelled here, so the statuses are an enumeration. */
module JobModels {

  /** The six statuses the aggregation names; `Other` stands for any other
      status value, carried verbatim. */
  datatype JobStatus =
    | Running
    | Pending
    | Retrying
    | Error
    | Stopped
    | Canceled
    | Other(raw: string)

  /** A replication job as returned by the job query. */
  datatype RepJob = RepJob(repository: string, tags: string, status: JobStatus)
}

=== FILE: json.dfy ===
/** The generic JSON value that `encoding/json` produces when it decodes into
    `interface{}`: objects become string-keyed maps, arrays sequences. */
module Json {

  /** Numbers are kept as mathematical integers: every number the processor
      inspects (a schema version) is integral, and floating point is not part
      of this model. Object key order is irrelevant, as in a Go map. */
  datatype Value =
    | Null
    | Bool(b: bool)
    | Number(n: int)
    | String(s: string)
    | Array(elems: seq<Value>)
    | Object(members: map<string, Value>)

  /** A decoded top-level JSON object, the type of `map[string]interface{}`. */
  type Attributes = map<string, Value>
}

=== FILE: media_type_pattern.dfy ===
/** The fixed pattern the default processor classifies media types with,
    `^application/vnd\.[^.]*\.(.*)\.config\.[^.]*\+json$`, in Go's regexp
    dialect: `.` does not match a newline, `[^.]` does, and `^`/`$` anchor
    at the ends of the whole text. */
module MediaTypePattern {
  import opened Results
  import opened Text

  const Prefix := "application/vnd."
  const ConfigWord := ".config"
  const JsonSuffix := "+json"

  /** The three variable parts of a matching media type: the vendor, the
      captured type, and the config version. */
  datatype Parts = Parts(vendor: string, capture: string, version: string)

  /** What each part of the pattern admits: `[^.]*` for vendor and version,
      `.*` for the capture. */
  predicate Wellformed(p: Parts) {
    '.' !in p.vendor && '\n' !in p.capture && '.' !in p.version
  }

  /** The media type the pattern reads as `p`, grouped the way Decompose
      takes it apart. */
  function Compose(p: Parts): string {
    Prefix + (p.vendor + "." + ((p.capture + ConfigWord) + "." + p.version) + JsonSuffix)
  }

  /** Compose is the pattern read left to right. */
  lemma ComposeFlat(p: Parts)
    ensures Compose(p) == Prefix + p.vendor + "." + p.capture + ConfigWord + "." + p.version + JsonSuffix
  {
  }

  /** The part after the vendor's dot and before `+json`: the capture, then
      `.config`, then the version after the last dot. */
  function MatchBody(body: string): (r: Option<(string, string)>)
    ensures r.Some? ==> '\n' !in r.value.0 && '.' !in r.value.1
    ensures r.Some? ==> body == (r.value.0 + ConfigWord) + "." + r.value.1
  {
    assert "." == ['.'];
    match CutLast(body, '.')
    case None => None
    case Some((head, version)) =>
      match TrimSuffix(head, ConfigWord)
      case None => None
      case Some(capture) =>
        if '\n' in capture then None else Some((capture, version))
  }

  /** The part after the fixed prefix: the vendor up to the first dot, then
      the body, then `+json`. */
  function MatchRest(rest: string): (r: Option<Parts>)
    ensures r.Some? ==> Wellformed(r.value)
    ensures r.Some? ==>
      rest == r.value.vendor + "." + ((r.value.capture + ConfigWord) + "." + r.value.version) + JsonSuffix
  {
    assert "." == ['.'];
    match CutFirst(rest, '.')
    case None => None
    case Some((vendor, tail)) =>
      match TrimSuffix(tail, JsonSuffix)
      case None => None
      case Some(body) =>
        match MatchBody(body)
        case None => None
        case Some((capture, version)) => Some(Parts(vendor, capture, version))
  }

  /** Matches `s` against the pattern: the vendor ends at the first dot after
      the prefix, the version starts after the last dot before `+json`, and
      what lies before that dot must end in `.config`. */
  function Decompose(s: string): (r: Option<Parts>)
    ensures r.Some? ==> Wellformed(r.value) && s == Compose(r.value)
  {
    match TrimPrefix(s, Prefix)
    case None => None
    case Some(rest) => MatchRest(rest)
  }

  lemma MatchBodyComplete(capture: string, version: string)
    requires '\n' !in capture && '.' !in version
    ensures MatchBody((capture + ConfigWord) + "." + version) == Some((capture, version))
  {
    var head := capture + ConfigWord;
    assert "." == ['.'];
    CutLastAt(head, '.', version);
    TrimSuffixOf(capture, ConfigWord);
  }

  lemma MatchRestComplete(p: Parts)
    requires Wellformed(p)
    ensures MatchRest(p.vendor + "." + ((p.capture + ConfigWord) + "." + p.version) + JsonSuffix) == Some(p)
  {
    var body := (p.capture + ConfigWord) + "." + p.version;
    var tail := body + JsonSuffix;
    assert p.vendor + "." + body + JsonSuffix == p.vendor + "." + tail;
    assert "." == ['.'];
    CutFirstAt(p.vendor, '.', tail);
    TrimSuffixOf(body, JsonSuffix);
    MatchBodyComplete(p.capture, p.version);
  }

  /** Every media type the pattern describes is matched, and matched with
      exactly the parts it was built from: the match is unique. */
  lemma DecomposeComplete(p: Parts)
    requires Wellformed(p)
    ensures Decompose(Compose(p)) == Some(p)
  {
    var rest := p.vendor + "." + ((p.capture + ConfigWord) + "." + p.version) + JsonSuffix;
    TrimPrefixOf(Prefix, rest);
    MatchRestComplete(p);
  }

  /** The match is an exact characterisation of the pattern's language. */
  lemma DecomposeIff(s: string, p: Parts)
    ensures Decompose(s) == Some(p) <==> Wellformed(p) && s == Compose(p)
  {
    if Wellformed(p) && s == Compose(p) {
      DecomposeComplete(p);
    }
  }
}

=== FILE: processor.dfy ===
/** The default artifact processor: classifies an artifact by its media
    type, abstracts the artifact's config blob into its attribute map, and
    lists and resolves the additions the config's self-description declares.
    The registry client, the manifest parser and the JSON decoder are passed
    in as plain functions. */
module Processor {
  import opened Results
  import opened Json
  import opened Text
  import opened SchemaV1
  import MediaTypePattern

  newtype byte = x: int | 0 <= x < 256

  /** The type reported for media types the pattern does not match. */
  const ArtifactTypeUnknown := "UNKNOWN"

  /** The two manifest envelopes whose config blob is read: the OCI image
      manifest and the Docker image manifest version 2, schema 2. */
  const MediaTypeImageManifest := "application/vnd.oci.image.manifest.v1+json"
  const MediaTypeDockerManifest := "application/vnd.docker.distribution.manifest.v2+json"

  datatype Artifact = Artifact(
    mediaType: string,
    manifestMediaType: string,
    repositoryName: string,
    artifactType: string,
    extraAttrs: Attributes)

  /** The part of a parsed manifest the processor reads. */
  datatype Manifest = Manifest(configDigest: string)

  /** A resolved addition: its bytes and the declared content type. */
  datatype Addition = Addition(content: seq<byte>, contentType: string)

  datatype Error =
    | ManifestMalformed         // the manifest bytes do not parse
    | ConfigMalformed           // the config blob is not a JSON object
    | UnsupportedSchema         // the self-description does not decode
    | UnsupportedSchemaVersion(version: int)
    | BadRequest(message: string)
    | RegistryError(cause: string)  // the registry client's error, passed through

  /** The error text the caller sees. For a malformed manifest or config
      the processor returns the JSON library's own error, which is not
      modelled: the two texts below are placeholders. */
  function Message(e: Error): string {
    match e
    case ManifestMalformed => "malformed manifest"
    case ConfigMalformed => "malformed config"
    case UnsupportedSchema => "unsupported artifact config schema"
    case UnsupportedSchemaVersion(v) => VersionMessagePrefix + FormatInt(v)
    case BadRequest(m) => m
    case RegistryError(c) => c
  }

  const VersionMessagePrefix := "unsupported artifact config schema version "

  /** The offending version, read back out of an error message. */
  function VersionInMessage(msg: string): Option<int> {
    match TrimPrefix(msg, VersionMessagePrefix)
    case None => None
    case Some(digits) => ParseInt(digits)
  }

  /** A version error names the offending version exactly: it can be read
      back from the message. */
  lemma VersionMessageNamesVersion(v: int)
    ensures HasPrefix(Message(UnsupportedSchemaVersion(v)), VersionMessagePrefix)
    ensures VersionInMessage(Message(UnsupportedSchemaVersion(v))) == Some(v)
  {
    TrimPrefixOf(VersionMessagePrefix, FormatInt(v));
    FormatIntRoundTrip(v);
  }

  /** The collaborators the processor calls out to: JSON parsing of the
      manifest, the registry's blob download (read to the end) by repository
      and digest, and JSON decoding of the config blob into an object. */
  datatype Collaborators = Collaborators(
    parseManifest: seq<byte> -> Option<Manifest>,
    pullBlob: (string, string) -> Result<seq<byte>, string>,
    decodeConfig: seq<byte> -> Option<Attributes>)

  /* ---------- artifact type ---------- */

  /** The upper-cased capture of the media-type pattern, or UNKNOWN. */
  function GetArtifactType(art: Artifact): (r: string)
    ensures forall p :: MediaTypePattern.Wellformed(p) && art.mediaType == MediaTypePattern.Compose(p)
              ==> r == ToUpper(p.capture)
    ensures (forall p :: !(MediaTypePattern.Wellformed(p) && art.mediaType == MediaTypePattern.Compose(p)))
              ==> r == ArtifactTypeUnknown
  {
    assert forall q :: MediaTypePattern.Wellformed(q) && art.mediaType == MediaTypePattern.Compose(q)
             ==> MediaTypePattern.Decompose(art.mediaType) == Some(q) by {
      forall q | MediaTypePattern.Wellformed(q) && art.mediaType == MediaTypePattern.Compose(q) {
        MediaTypePattern.DecomposeComplete(q);
      }
    }
    match MediaTypePattern.Decompose(art.mediaType)
    case Some(p) => ToUpper(p.capture)
    case None => ArtifactTypeUnknown
  }

  function WithMediaType(mediaType: string): Artifact {
    Artifact(mediaType, "", "", "", map[])
  }

  /** A media type built from the pattern is classified by its capture. */
  lemma ArtifactTypeOfComposed(mediaType: string, p: MediaTypePattern.Parts)
    requires MediaTypePattern.Wellformed(p) && mediaType == MediaTypePattern.Compose(p)
    ensures GetArtifactType(WithMediaType(mediaType)) == ToUpper(p.capture)
  {
    MediaTypePattern.DecomposeComplete(p);
  }

  /** Media types that do not match are classified UNKNOWN, never rejected. */
  lemma UnknownArtifactTypes()
    ensures GetArtifactType(WithMediaType("")) == ArtifactTypeUnknown
    ensures GetArtifactType(WithMediaType("unknown")) == ArtifactTypeUnknown
  {
    assert MediaTypePattern.Decompose("").None?;
    assert !HasPrefix("unknown", MediaTypePattern.Prefix);
  }

  /** The config media types the classification is exercised on, spelled
      piece by piece: `application/vnd.oci.image.config.v1+json`,
      `application/vnd.cncf.helm.chart.config.v1+json` and
      `application/vnd.caicloud.model.config.v1alpha1+json`. */
  const OciImageConfig := "application/vnd." + "oci" + "." + "image" + ".config" + "." + "v1" + "+json"
  const HelmChartConfig := "application/vnd." + "cncf" + "." + ("helm" + ".chart") + ".config" + "." + "v1" + "+json"
  const OrmbModelConfig := "application/vnd." + "caicloud" + "." + "model" + ".config" + "." + "v1alpha1" + "+json"

  const OciImageParts := MediaTypePattern.Parts("oci", "image", "v1")
  const HelmChartParts := MediaTypePattern.Parts("cncf", "helm" + ".chart", "v1")
  const OrmbModelParts := MediaTypePattern.Parts("caicloud", "model", "v1alpha1")

  lemma OciImageComposed()
    ensures MediaTypePattern.Wellformed(OciImageParts) && OciImageConfig == MediaTypePattern.Compose(OciImageParts)
  {
    MediaTypePattern.ComposeFlat(OciImageParts);
  }

  lemma HelmChartComposed()
    ensures MediaTypePattern.Wellformed(HelmChartParts) && HelmChartConfig == MediaTypePattern.Compose(HelmChartParts)
  {
    MediaTypePattern.ComposeFlat(HelmChartParts);
  }

  lemma OrmbModelComposed()
    ensures MediaTypePattern.Wellformed(OrmbModelParts) && OrmbModelConfig == MediaTypePattern.Compose(OrmbModelParts)
  {
    MediaTypePattern.ComposeFlat(OrmbModelParts);
  }

  lemma UpperImage() ensures ToUpper("image") == "IMAGE" {}
  lemma UpperHelmChart() ensures ToUpper(HelmChartParts.capture) == "HELM.CHART" {
    ToUpperAppend("helm", ".chart");
    assert "HELM" + ".CHART" == "HELM.CHART";
  }
  lemma UpperModel() ensures ToUpper("model") == "MODEL" {}

  /** An OCI image config is an IMAGE. */
  lemma OciImageType()
    ensures GetArtifactType(WithMediaType(OciImageConfig)) == "IMAGE"
  {
    OciImageComposed();
    ArtifactTypeOfComposed(OciImageConfig, OciImageParts);
    UpperImage();
  }

  /** The capture may contain dots: a Helm chart config is a HELM.CHART. */
  lemma HelmChartType()
    ensures GetArtifactType(WithMediaType(HelmChartConfig)) == "HELM.CHART"
  {
    HelmChartComposed();
    ArtifactTypeOfComposed(HelmChartConfig, HelmChartParts);
    UpperHelmChart();
  }

  /** Any dot-free config version is accepted: an ormb model config is a MODEL. */
  lemma OrmbModelType()
    ensures GetArtifactType(WithMediaType(OrmbModelConfig)) == "MODEL"
  {
    OrmbModelComposed();
    ArtifactTypeOfComposed(OrmbModelConfig, OrmbModelParts);
    UpperModel();
  }

  /* ---------- metadata ---------- */

  predicate SupportedManifest(manifestMediaType: string) {
    manifestMediaType == MediaTypeImageManifest || manifestMediaType == MediaTypeDockerManifest
  }

  /** The keys listed in `keys`. */
  function KeySet(keys: seq<string>): set<string> {
    set k | k in keys
  }

  /** Deletes the listed keys one after another, as the processor's loop over
      the skip list does; keys the map does not hold are no-ops. */
  function DeleteKeys(m: Attributes, keys: seq<string>): (r: Attributes)
    ensures r == m - KeySet(keys)
    decreases |keys|
  {
    if keys == [] then m
    else
      assert KeySet(keys) == {keys[0]} + KeySet(keys[1..]);
      DeleteKeys(m - {keys[0]}, keys[1..])
  }

  /** Deleting takes away exactly the listed keys the map holds. */
  lemma DeleteKeysSize(m: Attributes, keys: seq<string>)
    ensures |DeleteKeys(m, keys)| == |m| - |m.Keys * KeySet(keys)|
  {
    var removed := m.Keys * KeySet(keys);
    var kept := m.Keys - KeySet(keys);
    assert DeleteKeys(m, keys).Keys == kept;
    assert m.Keys == kept + removed;
    assert kept * removed == {};
  }

  /** The outcome of an abstraction: the artifact as the caller sees it
      afterwards, and the error returned, if any. */
  datatype Abstracted = Abstracted(artifact: Artifact, error: Option<Error>)

  /** Parses the manifest, downloads its config blob from the artifact's own
      repository and decodes the blob into an object. */
  function FetchConfig(art: Artifact, manifest: seq<byte>, io: Collaborators): (r: Result<Attributes, Error>)
    ensures io.parseManifest(manifest).None? ==> r == Failure(ManifestMalformed)
    ensures io.parseManifest(manifest).Some? ==>
              var pulled := io.pullBlob(art.repositoryName, io.parseManifest(manifest).value.configDigest);
              && (pulled.Failure? ==> r == Failure(RegistryError(pulled.error)))
              && (pulled.Success? && io.decodeConfig(pulled.value).None? ==> r == Failure(ConfigMalformed))
              && (pulled.Success? && io.decodeConfig(pulled.value).Some? ==> r == Success(io.decodeConfig(pulled.value).value))
  {
    match io.parseManifest(manifest)
    case None => Failure(ManifestMalformed)
    case Some(mani) =>
      match io.pullBlob(art.repositoryName, mani.configDigest)
      case Failure(e) => Failure(RegistryError(e))
      case Success(blob) =>
        match io.decodeConfig(blob)
        case None => Failure(ConfigMalformed)
        case Some(config) => Success(config)
  }

  /** Abstracts the config blob into `extraAttrs`: the full decoded object is
      stored first; a version-1 self-description then has its skip-listed
      keys removed. Nothing but `extraAttrs` ever changes. */
  function AbstractMetadata(art: Artifact, manifest: seq<byte>, io: Collaborators): (r: Abstracted)
    ensures r.artifact == art.(extraAttrs := r.artifact.extraAttrs)
    ensures !SupportedManifest(art.manifestMediaType) ==> r == Abstracted(art, None)
    ensures SupportedManifest(art.manifestMediaType) && FetchConfig(art, manifest, io).Failure? ==>
              r == Abstracted(art, Some(FetchConfig(art, manifest, io).error))
    ensures SupportedManifest(art.manifestMediaType) && FetchConfig(art, manifest, io).Success? ==>
              var config := FetchConfig(art, manifest, io).value;
              && (XHarborAttributes !in config ==> r == Abstracted(art.(extraAttrs := config), None))
              && (XHarborAttributes in config && DecodeSchema(config[XHarborAttributes]).None? ==>
                    r == Abstracted(art.(extraAttrs := config), Some(UnsupportedSchema)))
              && (XHarborAttributes in config && DecodeSchema(config[XHarborAttributes]).Some? ==>
                    var schema := DecodeSchema(config[XHarborAttributes]).value;
                    && (schema.schemaVersion != SchemaVersionV1 ==>
                          r == Abstracted(art.(extraAttrs := config), Some(UnsupportedSchemaVersion(schema.schemaVersion))))
                    && (schema.schemaVersion == SchemaVersionV1 ==>
                          r == Abstracted(art.(extraAttrs := config - KeySet(schema.skipKeyList)), None)))
  {
    if !SupportedManifest(art.manifestMediaType) then Abstracted(art, None)
    else
      match FetchConfig(art, manifest, io)
      case Failure(e) => Abstracted(art, Some(e))
      case Success(metadata) =>
        var populated := art.(extraAttrs := metadata);
        if XHarborAttributes !in metadata then Abstracted(populated, None)
        else
          match DecodeSchema(metadata[XHarborAttributes])
          case None => Abstracted(populated, Some(UnsupportedSchema))
          case Some(schema) =>
            if schema.schemaVersion != SchemaVersionV1 then
              Abstracted(populated, Some(UnsupportedSchemaVersion(schema.schemaVersion)))
            else
              Abstracted(art.(extraAttrs := DeleteKeys(metadata, schema.skipKeyList)), None)
  }

  /** The call reads `config`, whose self-description is the version-1
      `schema`. */
  predicate AbstractedFrom(art: Artifact, manifest: seq<byte>, io: Collaborators, config: Attributes, schema: Schema) {
    && SupportedManifest(art.manifestMediaType)
    && FetchConfig(art, manifest, io) == Success(config)
    && XHarborAttributes in config
    && DecodeSchema(config[XHarborAttributes]) == Some(schema)
    && schema.schemaVersion == SchemaVersionV1
  }

  /** After a successful version-1 abstraction a key is present exactly when
      the config has it and the skip list does not name it, with the config's
      value; the count drops by the number of skip keys actually present. */
  lemma SuccessfulAbstraction(art: Artifact, manifest: seq<byte>, io: Collaborators, config: Attributes, schema: Schema)
    requires AbstractedFrom(art, manifest, io, config, schema)
    ensures AbstractMetadata(art, manifest, io).error.None?
    ensures forall k :: k in AbstractMetadata(art, manifest, io).artifact.extraAttrs <==> k in config && k !in schema.skipKeyList
    ensures forall k :: k in config && k !in schema.skipKeyList ==> AbstractMetadata(art, manifest, io).artifact.extraAttrs[k] == config[k]
    ensures |AbstractMetadata(art, manifest, io).artifact.extraAttrs| == |config| - |config.Keys * KeySet(schema.skipKeyList)|
  {
    DeleteKeysSize(config, schema.skipKeyList);
  }

  /** An empty (or missing) skip list keeps the decoded config whole. */
  lemma EmptySkipListKeepsAll(art: Artifact, manifest: seq<byte>, io: Collaborators, config: Attributes, schema: Schema)
    requires AbstractedFrom(art, manifest, io, config, schema) && schema.skipKeyList == []
    ensures AbstractMetadata(art, manifest, io) == Abstracted(art.(extraAttrs := config), None)
  {
    assert config - KeySet([]) == config;
  }

  /** A version other than 1 is an error that names the version, and the
      artifact keeps the full, unredacted config. */
  lemma UnsupportedVersionKeepsFullConfig(art: Artifact, manifest: seq<byte>, io: Collaborators)
    requires SupportedManifest(art.manifestMediaType)
    requires FetchConfig(art, manifest, io).Success?
    requires var config := FetchConfig(art, manifest, io).value;
             XHarborAttributes in config && DecodeSchema(config[XHarborAttributes]).Some? &&
             DecodeSchema(config[XHarborAttributes]).value.schemaVersion != SchemaVersionV1
    ensures var config := FetchConfig(art, manifest, io).value;
            var v := DecodeSchema(config[XHarborAttributes]).value.schemaVersion;
            var r := AbstractMetadata(art, manifest, io);
            && r.artifact.extraAttrs == config
            && r.error == Some(UnsupportedSchemaVersion(v))
            && VersionInMessage(Message(r.error.value)) == Some(v)
  {
    var config := FetchConfig(art, manifest, io).value;
    VersionMessageNamesVersion(DecodeSchema(config[XHarborAttributes]).value.schemaVersion);
  }

  /** The message for the version-2 config of the processor's tests. */
  lemma VersionTwoMessage()
    ensures Message(UnsupportedSchemaVersion(2)) == "unsupported artifact config schema version 2"
  {
    assert FormatInt(2) == "2";
  }

  /* ---------- additions ---------- */

  /** The names of the additions, in order, one per addition. */
  function AdditionNames(adds: seq<AdditionSchema>): (r: seq<string>)
    ensures |r| == |adds|
    ensures forall i :: 0 <= i < |adds| ==> r[i] == adds[i].name
  {
    if adds == [] then [] else [adds[0].name] + AdditionNames(adds[1..])
  }

  /** Lists the declared additions' names; never fails: a missing or
      undecodable self-description lists nothing. */
  function ListAdditionTypes(art: Artifact): (r: seq<string>)
    ensures XHarborAttributes !in art.extraAttrs ==> r == []
    ensures XHarborAttributes in art.extraAttrs && DecodeSchema(art.extraAttrs[XHarborAttributes]).None? ==> r == []
    ensures XHarborAttributes in art.extraAttrs && DecodeSchema(art.extraAttrs[XHarborAttributes]).Some? ==>
              var adds := DecodeSchema(art.extraAttrs[XHarborAttributes]).value.additions;
              |r| == |adds| && forall i :: 0 <= i < |adds| ==> r[i] == adds[i].name
  {
    if XHarborAttributes !in art.extraAttrs then []
    else
      match DecodeSchema(art.extraAttrs[XHarborAttributes])
      case None => []
      case Some(schema) => AdditionNames(schema.additions)
  }

  /** The index of the last addition called `name`, if any. */
  function LastNamed(adds: seq<AdditionSchema>, name: string): (r: Option<nat>)
    ensures r.Some? ==> r.value < |adds| && adds[r.value].name == name
    ensures r.Some? ==> forall j :: r.value < j < |adds| ==> adds[j].name != name
    ensures r.None? ==> forall j :: 0 <= j < |adds| ==> adds[j].name != name
  {
    if adds == [] then None
    else if adds[|adds| - 1].name == name then Some(|adds| - 1)
    else LastNamed(adds[..|adds| - 1], name)
  }

  /** The content type and digest the processor's scan settles on. */
  function Selected(adds: seq<AdditionSchema>, name: string): (string, string) {
    match LastNamed(adds, name)
    case None => ("", "")
    case Some(i) => (adds[i].contentType, adds[i].digest)
  }

  /** The scan over the additions: it does not stop at a match, so the last
      addition with the name decides both fields; with no match both stay
      empty. */
  method ScanAdditions(adds: seq<AdditionSchema>, name: string) returns (contentType: string, layerDigest: string)
    ensures LastNamed(adds, name).None? ==> contentType == "" && layerDigest == ""
    ensures LastNamed(adds, name).Some? ==>
              contentType == adds[LastNamed(adds, name).value].contentType &&
              layerDigest == adds[LastNamed(adds, name).value].digest
  {
    contentType, layerDigest := "", "";
    var k := 0;
    while k < |adds|
      invariant 0 <= k <= |adds|
      invariant (contentType, layerDigest) == Selected(adds[..k], name)
    {
      assert adds[..k + 1][..k] == adds[..k];
      if adds[k].name == name {
        contentType := adds[k].contentType;
        layerDigest := adds[k].digest;
      }
      k := k + 1;
    }
    assert adds[..k] == adds;
  }

  function NoAdditionsMessage(artifactType: string): string {
    "no addition defined in config layer for artifact " + artifactType + ", cannot get the addition"
  }

  function UnsupportedAdditionMessage(addition: string, artifactType: string): string {
    "addition " + addition + " isn't supported for " + artifactType
  }

  /** Resolves the addition called `addition`: the last declared entry with
      that name must carry a digest, whose blob is read from the artifact's
      own repository. Every way of not finding it is a bad request; a
      registry error is passed through unchanged. */
  function AbstractAddition(art: Artifact, addition: string, pullBlob: (string, string) -> Result<seq<byte>, string>)
    : (r: Result<Addition, Error>)
    ensures XHarborAttributes !in art.extraAttrs ==> r == Failure(BadRequest(NoAdditionsMessage(art.artifactType)))
    ensures XHarborAttributes in art.extraAttrs && DecodeSchema(art.extraAttrs[XHarborAttributes]).None? ==>
              r == Failure(BadRequest(UnsupportedAdditionMessage(addition, art.artifactType)))
    ensures XHarborAttributes in art.extraAttrs && DecodeSchema(art.extraAttrs[XHarborAttributes]).Some? ==>
              var adds := DecodeSchema(art.extraAttrs[XHarborAttributes]).value.additions;
              && (LastNamed(adds, addition).None? ==>
                    r == Failure(BadRequest(UnsupportedAdditionMessage(addition, art.artifactType))))
              && (LastNamed(adds, addition).Some? ==>
                    var entry := adds[LastNamed(adds, addition).value];
                    && (entry.digest == "" ==> r == Failure(BadRequest(UnsupportedAdditionMessage(addition, art.artifactType))))
                    && (entry.digest != "" && pullBlob(art.repositoryName, entry.digest).Failure? ==>
                          r == Failure(RegistryError(pullBlob(art.repositoryName, entry.digest).error)))
                    && (entry.digest != "" && pullBlob(art.repositoryName, entry.digest).Success? ==>
                          r == Success(Addition(pullBlob(art.repositoryName, entry.digest).value, entry.contentType))))
  {
    if XHarborAttributes !in art.extraAttrs then
      Failure(BadRequest(NoAdditionsMessage(art.artifactType)))
    else
      match DecodeSchema(art.extraAttrs[XHarborAttributes])
      case None => Failure(BadRequest(UnsupportedAdditionMessage(addition, art.artifactType)))
      case Some(schema) =>
        var (contentType, layerDigest) := Selected(schema.additions, addition);
        if layerDigest == "" then Failure(BadRequest(UnsupportedAdditionMessage(addition, art.artifactType)))
        else
          match pullBlob(art.repositoryName, layerDigest)
          case Failure(e) => Failure(RegistryError(e))
          case Success(content) => Success(Addition(content, contentType))
  }

  /** Whatever can be resolved is listed. */
  lemma ResolvableAdditionsAreListed(art: Artifact, addition: string, pullBlob: (string, string) -> Result<seq<byte>, string>)
    requires AbstractAddition(art, addition, pullBlob).Success?
    ensures addition in ListAdditionTypes(art)
  {
    var adds := DecodeSchema(art.extraAttrs[XHarborAttributes]).value.additions;
    var i := LastNamed(adds, addition).value;
    assert ListAdditionTypes(art)[i] == addition;
  }

  /** Asking for a name that is not listed is a bad request. */
  lemma UnlistedAdditionsAreBadRequests(art: Artifact, addition: string, pullBlob: (string, string) -> Result<seq<byte>, string>)
    requires addition !in ListAdditionTypes(art)
    ensures AbstractAddition(art, addition, pullBlob).Failure?
    ensures AbstractAddition(art, addition, pullBlob).error.BadRequest?
  {
  }

  /** Of several additions with one name, the one declared last is used. */
  lemma {:induction false} LastDeclarationWins(before: seq<AdditionSchema>, entry: AdditionSchema, after: seq<AdditionSchema>)
    requires forall j :: 0 <= j < |after| ==> after[j].name != entry.name
    ensures Selected(before + [entry] + after, entry.name) == (entry.contentType, entry.digest)
  {
    var adds := before + [entry] + after;
    assert adds[|before|] == entry;
  }

  /** Metadata abstraction and addition listing agree: once a version-1
      config has been abstracted, and its skip list spares the reserved key,
      the listed additions are those the self-description declares. */
  lemma AbstractedAdditionsAreListed(art: Artifact, manifest: seq<byte>, io: Collaborators, config: Attributes, schema: Schema)
    requires AbstractedFrom(art, manifest, io, config, schema)
    requires XHarborAttributes !in schema.skipKeyList
    ensures ListAdditionTypes(AbstractMetadata(art, manifest, io).artifact) == AdditionNames(schema.additions)
  {
  }

  /** The documented example schema, stored under the reserved key, lists
      `yaml` then `readme`; asking for `readme` reads that digest's blob from
      the artifact's own repository, and an undeclared name is refused. */
  lemma ExampleSchemaAdditions(art: Artifact, pullBlob: (string, string) -> Result<seq<byte>, string>)
    requires art.extraAttrs == map[XHarborAttributes := EncodeSchema(ExampleSchema)]
    ensures ListAdditionTypes(art) == ["yaml", "readme"]
    ensures var readme := ExampleSchema.additions[1];
            var pulled := pullBlob(art.repositoryName, readme.digest);
            AbstractAddition(art, "readme", pullBlob)
              == (if pulled.Success? then Success(Addition(pulled.value, readme.contentType)) else Failure(RegistryError(pulled.error)))
    ensures AbstractAddition(art, "icon", pullBlob) == Failure(BadRequest(UnsupportedAdditionMessage("icon", art.artifactType)))
  {
    ExampleListed(art);
    ExampleReadme(art, pullBlob);
    ExampleIcon(art, pullBlob);
  }

  lemma ExampleListed(art: Artifact)
    requires art.extraAttrs == map[XHarborAttributes := EncodeSchema(ExampleSchema)]
    ensures ListAdditionTypes(art) == ["yaml", "readme"]
  {
    SchemaRoundTrip(ExampleSchema);
    ExampleNames();
  }

  lemma ExampleReadme(art: Artifact, pullBlob: (string, string) -> Result<seq<byte>, string>)
    requires art.extraAttrs == map[XHarborAttributes := EncodeSchema(ExampleSchema)]
    ensures var readme := ExampleSchema.additions[1];
            var pulled := pullBlob(art.repositoryName, readme.digest);
            AbstractAddition(art, "readme", pullBlob)
              == (if pulled.Success? then Success(Addition(pulled.value, readme.contentType)) else Failure(RegistryError(pulled.error)))
  {
    SchemaRoundTrip(ExampleSchema);
    ExampleLookups();
    assert |ExampleSchema.additions[1].digest| > 0;
  }

  lemma ExampleIcon(art: Artifact, pullBlob: (string, string) -> Result<seq<byte>, string>)
    requires art.extraAttrs == map[XHarborAttributes := EncodeSchema(ExampleSchema)]
    ensures AbstractAddition(art, "icon", pullBlob) == Failure(BadRequest(UnsupportedAdditionMessage("icon", art.artifactType)))
  {
    SchemaRoundTrip(ExampleSchema);
    ExampleLookups();
  }

  lemma ExampleNames()
    ensures AdditionNames(ExampleSchema.additions) == ["yaml", "readme"]
  {
  }

  lemma ExampleLookups()
    ensures LastNamed(ExampleSchema.additions, "readme") == Some(1)
    ensures LastNamed(ExampleSchema.additions, "icon").None?
  {
    var adds := ExampleSchema.additions;
    assert adds[1].name == "readme";
    assert adds[..1][0].name == "yaml";
    assert "icon" != "yaml" && "icon" != "readme";
  }
}

=== FILE: replication_models.dfy ===
/** The request, response and validation models of the replication API. */
module ReplicationModels {
  import opened JobModels

  /** The three aggregate replication statuses. */
  const ReplicateSucceed := "Succeed"
  const ReplicateFailed := "Failed"
  const ReplicateProcessing := "Processing"

  /** The three statuses are pairwise distinct. */
  lemma AggregateStatusesDistinct()
    ensures ReplicateSucceed != ReplicateFailed
    ensures ReplicateSucceed != ReplicateProcessing
    ensures ReplicateFailed != ReplicateProcessing
  {
  }

  newtype int64 = x: int | -0x8000_0000_0000_0000 <= x < 0x8000_0000_0000_0000

  datatype Replication = Replication(policyId: int64)

  /** A request to replicate a list of images to a list of targets. */
  datatype ImagesReplication = ImagesReplication(images: seq<string>, targets: seq<string>)

  /** The operation UUID handed back for a later status query. */
  datatype ImagesReplicationRsp = ImagesReplicationRsp(uuid: string)

  /** One job's image, `repository:tags`, and its status as stored. */
  datatype ImageRepStatus = ImageRepStatus(image: string, status: JobStatus)

  datatype ImagesReplicationStatus = ImagesReplicationStatus(status: string, jobsStatus: seq<ImageRepStatus>)

  /** A validation error as the validation framework records it. */
  datatype ValidationError = ValidationError(key: string, message: string)

  /** The errors recorded so far, in order. */
  datatype Validation = Validation(errors: seq<ValidationError>)

  const PolicyIdKey := "policy_id"
  const InvalidValueMessage := "invalid value"

  /** Checks that the policy id is positive, recording an error under
      `policy_id` otherwise; errors already recorded are kept. */
  function Valid(r: Replication, v: Validation): (v': Validation)
    ensures |v'.errors| >= |v.errors| && v'.errors[..|v.errors|] == v.errors
    ensures |v'.errors| > |v.errors| <==> r.policyId <= 0
    ensures forall i :: |v.errors| <= i < |v'.errors| ==> v'.errors[i] == ValidationError(PolicyIdKey, InvalidValueMessage)
    ensures |v'.errors| <= |v.errors| + 1
  {
    if r.policyId <= 0 then Validation(v.errors + [ValidationError(PolicyIdKey, InvalidValueMessage)]) else v
  }

  /** Positive ids pass and zero is rejected: the boundary is inclusive. */
  lemma ValidBoundary()
    ensures Valid(Replication(1), Validation([])) == Validation([])
    ensures Valid(Replication(0), Validation([])) == Validation([ValidationError(PolicyIdKey, InvalidValueMessage)])
  {
  }
}

=== FILE: results.dfy ===
/** Optional values and success-or-error results, the shapes Go expresses with
    a `, ok` lookup and with an `(value, error)` return pair. */
module Results {

  datatype Option<+T> = None | Some(value: T)

  datatype Result<+T, +E> = Success(value: T) | Failure(error: E)
}

=== FILE: schema_v1.dfy ===
/** Version 1 of the self-description an artifact may embed in its config
    blob: the reserved key it lives under, the one supported version, the
    `Schema`/`AdditionSchema` records, and how a generic JSON value is read
    into them (the processor uses `mapstructure.Decode` for that). */
module SchemaV1 {
  import opened Results
  import opened Json

  /** The top-level config key holding the self-description. */
  const XHarborAttributes: string := "xHarborAttributes"

  /** The only schema version the processor accepts. */
  const SchemaVersionV1: int := 1

  /** One named side payload, stored as a layer of the artifact. */
  datatype AdditionSchema = AdditionSchema(contentType: string, name: string, digest: string)

  /** A missing icon, addition list or skip list is the empty one, as a Go
      zero value is. `skipKeyList` names top-level config keys that are not
      carried into the artifact model. */
  datatype Schema = Schema(
    schemaVersion: int,
    icon: string,
    additions: seq<AdditionSchema>,
    skipKeyList: seq<string>)

  const ZeroAddition := AdditionSchema("", "", "")
  const ZeroSchema := Schema(0, "", [], [])

  /* ---------- wire field names (the json tags) ---------- */

  const KeySchemaVersion := "schemaVersion"
  const KeyIcon := "icon"
  const KeyAdditions := "additions"
  const KeySkipKeyList := "skipKeyList"
  const KeyContentType := "contentType"
  const KeyName := "name"
  const KeyDigest := "digest"

  /* ---------- decoding a generic value into the records ----------
     A JSON null and an absent key both leave the Go zero value in place;
     a value of the wrong JSON kind makes the whole decode fail; keys the
     records do not name are ignored. */

  /** The member `key` of an object, or null when there is none. */
  function Field(m: map<string, Value>, key: string): Value {
    if key in m then m[key] else Null
  }

  function DecodeInt(v: Value): (r: Option<int>)
    ensures r.Some? <==> v.Null? || v.Number?
    ensures v.Number? ==> r == Some(v.n)
  {
    match v
    case Null => Some(0)
    case Number(n) => Some(n)
    case _ => None
  }

  function DecodeString(v: Value): (r: Option<string>)
    ensures r.Some? <==> v.Null? || v.String?
    ensures v.String? ==> r == Some(v.s)
  {
    match v
    case Null => Some("")
    case String(s) => Some(s)
    case _ => None
  }

  /** A list of strings, element by element; one bad element fails it all. */
  function DecodeStringElems(es: seq<Value>): (r: Option<seq<string>>)
    ensures r.Some? ==> |r.value| == |es|
    ensures r.Some? <==> forall i :: 0 <= i < |es| ==> DecodeString(es[i]).Some?
    ensures r.Some? ==> forall i :: 0 <= i < |es| ==> Some(r.value[i]) == DecodeString(es[i])
  {
    if es == [] then Some([])
    else
      match (DecodeString(es[0]), DecodeStringElems(es[1..]))
      case (Some(x), Some(xs)) => Some([x] + xs)
      case _ => None
  }

  function DecodeStrings(v: Value): Option<seq<string>> {
    match v
    case Null => Some([])
    case Array(es) => DecodeStringElems(es)
    case _ => None
  }

  function DecodeAddition(v: Value): Option<AdditionSchema> {
    match v
    case Null => Some(ZeroAddition)
    case Object(m) =>
      (match (DecodeString(Field(m, KeyContentType)), DecodeString(Field(m, KeyName)), DecodeString(Field(m, KeyDigest)))
       case (Some(contentType), Some(name), Some(digest)) => Some(AdditionSchema(contentType, name, digest))
       case _ => None)
    case _ => None
  }

  /** A list of additions, in order; one bad element fails it all. */
  function DecodeAdditionElems(es: seq<Value>): (r: Option<seq<AdditionSchema>>)
    ensures r.Some? ==> |r.value| == |es|
    ensures r.Some? <==> forall i :: 0 <= i < |es| ==> DecodeAddition(es[i]).Some?
    ensures r.Some? ==> forall i :: 0 <= i < |es| ==> Some(r.value[i]) == DecodeAddition(es[i])
  {
    if es == [] then Some([])
    else
      match (DecodeAddition(es[0]), DecodeAdditionElems(es[1..]))
      case (Some(x), Some(xs)) => Some([x] + xs)
      case _ => None
  }

  function DecodeAdditions(v: Value): Option<seq<AdditionSchema>> {
    match v
    case Null => Some([])
    case Array(es) => DecodeAdditionElems(es)
    case _ => None
  }

  /** Reads a self-description. Only an object (or null) can be one. */
  function DecodeSchema(v: Value): (r: Option<Schema>)
    ensures v.Null? ==> r == Some(ZeroSchema)
    ensures !v.Null? && !v.Object? ==> r.None?
    ensures v.Object? ==>
      (r.Some? <==> DecodeInt(Field(v.members, KeySchemaVersion)).Some?
                    && DecodeString(Field(v.members, KeyIcon)).Some?
                    && DecodeAdditions(Field(v.members, KeyAdditions)).Some?
                    && DecodeStrings(Field(v.members, KeySkipKeyList)).Some?)
    ensures v.Object? && r.Some? ==>
      Some(r.value.schemaVersion) == DecodeInt(Field(v.members, KeySchemaVersion))
      && Some(r.value.icon) == DecodeString(Field(v.members, KeyIcon))
      && Some(r.value.additions) == DecodeAdditions(Field(v.members, KeyAdditions))
      && Some(r.value.skipKeyList) == DecodeStrings(Field(v.members, KeySkipKeyList))
  {
    match v
    case Null => Some(ZeroSchema)
    case Object(m) =>
      (match (DecodeInt(Field(m, KeySchemaVersion)), DecodeString(Field(m, KeyIcon)),
              DecodeAdditions(Field(m, KeyAdditions)), DecodeStrings(Field(m, KeySkipKeyList)))
       case (Some(version), Some(icon), Some(additions), Some(skip)) => Some(Schema(version, icon, additions, skip))
       case _ => None)
    case _ => None
  }

  /* ---------- encoding the records as JSON ----------
     The json tags mark icon, additions and skipKeyList `omitempty`, so
     empty ones are left out of the object. */

  function EncodeAddition(a: AdditionSchema): Value {
    Object(map[KeyContentType := String(a.contentType), KeyName := String(a.name), KeyDigest := String(a.digest)])
  }

  function EncodeAdditionElems(adds: seq<AdditionSchema>): (r: seq<Value>)
    ensures |r| == |adds|
    ensures forall i :: 0 <= i < |adds| ==> r[i] == EncodeAddition(adds[i])
  {
    if adds == [] then [] else [EncodeAddition(adds[0])] + EncodeAdditionElems(adds[1..])
  }

  function EncodeStringElems(xs: seq<string>): (r: seq<Value>)
    ensures |r| == |xs|
    ensures forall i :: 0 <= i < |xs| ==> r[i] == String(xs[i])
  {
    if xs == [] then [] else [String(xs[0])] + EncodeStringElems(xs[1..])
  }

  function EncodeSchema(s: Schema): Value {
    var base := map[KeySchemaVersion := Number(s.schemaVersion)];
    var withIcon := if s.icon == "" then base else base[KeyIcon := String(s.icon)];
    var withAdditions :=
      if s.additions == [] then withIcon
      else withIcon[KeyAdditions := Array(EncodeAdditionElems(s.additions))];
    var withSkip :=
      if s.skipKeyList == [] then withAdditions
      else withAdditions[KeySkipKeyList := Array(EncodeStringElems(s.skipKeyList))];
    Object(withSkip)
  }

  /* ---------- round trip ---------- */

  lemma AdditionRoundTrip(a: AdditionSchema)
    ensures DecodeAddition(EncodeAddition(a)) == Some(a)
  {
    var m := EncodeAddition(a).members;
    assert Field(m, KeyContentType) == String(a.contentType);
    assert Field(m, KeyName) == String(a.name);
    assert Field(m, KeyDigest) == String(a.digest);
  }

  lemma {:induction false} AdditionElemsRoundTrip(adds: seq<AdditionSchema>)
    ensures DecodeAdditionElems(EncodeAdditionElems(adds)) == Some(adds)
    decreases |adds|
  {
    if adds != [] {
      var es := EncodeAdditionElems(adds);
      assert es[0] == EncodeAddition(adds[0]);
      assert es[1..] == EncodeAdditionElems(adds[1..]);
      AdditionRoundTrip(adds[0]);
      AdditionElemsRoundTrip(adds[1..]);
      assert [adds[0]] + adds[1..] == adds;
    }
  }

  lemma {:induction false} StringElemsRoundTrip(xs: seq<string>)
    ensures DecodeStringElems(EncodeStringElems(xs)) == Some(xs)
    decreases |xs|
  {
    if xs != [] {
      var es := EncodeStringElems(xs);
      assert es[1..] == EncodeStringElems(xs[1..]);
      StringElemsRoundTrip(xs[1..]);
      assert [xs[0]] + xs[1..] == xs;
    }
  }

  /** Each field of an encoded schema is found under its own key; an empty
      `omitempty` field is absent. */
  lemma EncodedFields(s: Schema)
    ensures EncodeSchema(s).Object?
    ensures Field(EncodeSchema(s).members, KeySchemaVersion) == Number(s.schemaVersion)
    ensures Field(EncodeSchema(s).members, KeyIcon) == if s.icon == "" then Null else String(s.icon)
    ensures Field(EncodeSchema(s).members, KeyAdditions)
      == if s.additions == [] then Null else Array(EncodeAdditionElems(s.additions))
    ensures Field(EncodeSchema(s).members, KeySkipKeyList)
      == if s.skipKeyList == [] then Null else Array(EncodeStringElems(s.skipKeyList))
  {
    assert |KeySchemaVersion| == 13 && |KeyIcon| == 4 && |KeyAdditions| == 9 && |KeySkipKeyList| == 11;
  }

  /** Every schema survives being written as JSON and read back. */
  lemma SchemaRoundTrip(s: Schema)
    ensures DecodeSchema(EncodeSchema(s)) == Some(s)
  {
    var m := EncodeSchema(s).members;
    EncodedFields(s);
    assert DecodeString(Field(m, KeyIcon)) == Some(s.icon);
    AdditionElemsRoundTrip(s.additions);
    assert DecodeAdditions(Field(m, KeyAdditions)) == Some(s.additions);
    StringElemsRoundTrip(s.skipKeyList);
    assert DecodeStrings(Field(m, KeySkipKeyList)) == Some(s.skipKeyList);
  }

  /* ---------- the documented example ---------- */

  const ExampleSchema := Schema(
    1,
    "https://github.com/caicloud/ormb/raw/master/docs/images/logo.png",
    [ AdditionSchema("text/plain; charset=utf-8", "yaml",
        "sha256:c2b304e60b7aec6a32d50b0d2c064933a7554db9d5d55259ac236f630a1c1f86"),
      AdditionSchema("text/plain; charset=utf-8", "readme",
        "sha256:6dba1ad7ead7a5ee681441ec4b56b6a24690de6411d4574b927ce654c303f3c6") ],
    ["metrics", "dataset"])

  /** The documented example as the JSON object it is written as, with its
      two addition objects and its skip list named separately. */
  const ExampleYamlJson: Value := Object(map[
    "contentType" := String("text/plain; charset=utf-8"),
    "name" := String("yaml"),
    "digest" := String("sha256:c2b304e60b7aec6a32d50b0d2c064933a7554db9d5d55259ac236f630a1c1f86")])

  const ExampleReadmeJson: Value := Object(map[
    "contentType" := String("text/plain; charset=utf-8"),
    "name" := String("readme"),
    "digest" := String("sha256:6dba1ad7ead7a5ee681441ec4b56b6a24690de6411d4574b927ce654c303f3c6")])

  const ExampleSkipJson: Value := Array([String("metrics"), String("dataset")])

  const ExampleJson: Value := Object(map[
    "schemaVersion" := Number(1),
    "icon" := String("https://github.com/caicloud/ormb/raw/master/docs/images/logo.png"),
    "additions" := Array([ExampleYamlJson, ExampleReadmeJson]),
    "skipKeyList" := ExampleSkipJson])

  lemma ExampleYamlDecodes()
    ensures DecodeAddition(ExampleYamlJson) == Some(ExampleSchema.additions[0])
  {
    var m := ExampleYamlJson.members;
    assert Field(m, KeyContentType) == String("text/plain; charset=utf-8");
    assert Field(m, KeyName) == String("yaml");
    assert Field(m, KeyDigest) == String("sha256:c2b304e60b7aec6a32d50b0d2c064933a7554db9d5d55259ac236f630a1c1f86");
  }

  lemma ExampleReadmeDecodes()
    ensures DecodeAddition(ExampleReadmeJson) == Some(ExampleSchema.additions[1])
  {
    var m := ExampleReadmeJson.members;
    assert Field(m, KeyContentType) == String("text/plain; charset=utf-8");
    assert Field(m, KeyName) == String("readme");
    assert Field(m, KeyDigest) == String("sha256:6dba1ad7ead7a5ee681441ec4b56b6a24690de6411d4574b927ce654c303f3c6");
  }

  lemma ExampleAdditionsDecode()
    ensures DecodeAdditions(Array([ExampleYamlJson, ExampleReadmeJson])) == Some(ExampleSchema.additions)
  {
    var adds := [ExampleYamlJson, ExampleReadmeJson];
    ExampleYamlDecodes();
    ExampleReadmeDecodes();
    assert DecodeAddition(adds[0]).Some? && DecodeAddition(adds[1]).Some?;
    var decoded := DecodeAdditionElems(adds);
    assert decoded.value[0] == ExampleSchema.additions[0];
    assert decoded.value[1] == ExampleSchema.additions[1];
    assert |decoded.value| == |ExampleSchema.additions|;
    assert decoded.value == ExampleSchema.additions;
  }

  lemma ExampleSkipDecodes()
    ensures DecodeStrings(ExampleSkipJson) == Some(ExampleSchema.skipKeyList)
  {
    var skip := ExampleSkipJson.elems;
    var decoded := DecodeStringElems(skip);
    assert decoded.Some?;
    assert decoded.value[0] == "metrics" && decoded.value[1] == "dataset";
    assert |decoded.value| == |ExampleSchema.skipKeyList|;
    assert decoded.value == ExampleSchema.skipKeyList;
  }

  /** The documented JSON decodes to a version-1 schema with additions
      `yaml` then `readme` and skip list `metrics`, `dataset`. */
  lemma ExampleSchemaDecodes()
    ensures DecodeSchema(ExampleJson) == Some(ExampleSchema)
  {
    var m := ExampleJson.members;
    assert Field(m, KeySchemaVersion) == Number(1);
    assert Field(m, KeyIcon) == String(ExampleSchema.icon);
    assert Field(m, KeyAdditions) == Array([ExampleYamlJson, ExampleReadmeJson]);
    assert Field(m, KeySkipKeyList) == ExampleSkipJson;
    ExampleAdditionsDecode();
    ExampleSkipDecodes();
  }
}

=== FILE: text.dfy ===
/** The few pieces of Go's `strings` and `fmt` packages the core relies on,
    over `string` = `seq<char>`. */
module Text {
  import opened Results

  predicate HasPrefix(s: string, prefix: string) {
    |prefix| <= |s| && s[..|prefix|] == prefix
  }

  predicate HasSuffix(s: string, suffix: string) {
    |suffix| <= |s| && s[|s| - |suffix|..] == suffix
  }

  /* ---------- strings.ToUpper, restricted to ASCII ---------- */

  predicate IsLowerAscii(c: char) {
    'a' <= c <= 'z'
  }

  function ToUpperChar(c: char): char {
    if IsLowerAscii(c) then (c as int - 32) as char else c
  }

  /** Upper-cases every ASCII letter and leaves every other character alone. */
  function ToUpper(s: string): (r: string)
    ensures |r| == |s|
    ensures forall i :: 0 <= i < |s| ==> r[i] == ToUpperChar(s[i])
  {
    if s == [] then [] else [ToUpperChar(s[0])] + ToUpper(s[1..])
  }

  /** Upper-casing works piecewise. */
  lemma {:induction false} ToUpperAppend(a: string, b: string)
    ensures ToUpper(a + b) == ToUpper(a) + ToUpper(b)
    decreases |a|
  {
    if a == [] {
      assert a + b == b;
    } else {
      assert (a + b)[0] == a[0];
      assert (a + b)[1..] == a[1..] + b;
      ToUpperAppend(a[1..], b);
    }
  }

  /** The result of ToUpper holds no lower-case ASCII letter, every character
      that was not one is kept, and upper-casing twice changes nothing. */
  lemma ToUpperNormalises(s: string)
    ensures forall i :: 0 <= i < |s| ==> !IsLowerAscii(ToUpper(s)[i])
    ensures forall i :: 0 <= i < |s| && !IsLowerAscii(s[i]) ==> ToUpper(s)[i] == s[i]
    ensures ToUpper(ToUpper(s)) == ToUpper(s)
  {
    var u := ToUpper(s);
    assert forall i :: 0 <= i < |u| ==> ToUpperChar(u[i]) == u[i];
  }

  /* ---------- searching for a character ---------- */

  /** The position of the first occurrence of `c` in `s`, if any. */
  function IndexOfChar(s: string, c: char): (r: Option<nat>)
    ensures r.Some? ==> r.value < |s| && s[r.value] == c && c !in s[..r.value]
    ensures r.None? ==> c !in s
  {
    if s == [] then None
    else if s[0] == c then Some(0)
    else
      match IndexOfChar(s[1..], c)
      case None => None
      case Some(i) => Some(i + 1)
  }

  /** The position of the last occurrence of `c` in `s`, if any. */
  function LastIndexOfChar(s: string, c: char): (r: Option<nat>)
    ensures r.Some? ==> r.value < |s| && s[r.value] == c && c !in s[r.value + 1..]
    ensures r.None? ==> c !in s
  {
    if s == [] then None
    else if s[|s| - 1] == c then Some(|s| - 1)
    else LastIndexOfChar(s[..|s| - 1], c)
  }

  /** The first occurrence of `c` is the one right after a `c`-free prefix. */
  lemma IndexOfCharAfter(a: string, c: char, b: string)
    requires c !in a
    ensures IndexOfChar(a + [c] + b, c) == Some(|a|)
  {
    var s := a + [c] + b;
    assert s[|a|] == c;
    assert s[..|a|] == a;
  }

  /** The last occurrence of `c` is the one right before a `c`-free suffix. */
  lemma LastIndexOfCharBefore(a: string, c: char, b: string)
    requires c !in b
    ensures LastIndexOfChar(a + [c] + b, c) == Some(|a|)
  {
    var s := a + [c] + b;
    assert s[|a|] == c;
    assert s[|a| + 1..] == b;
  }

  /* ---------- cutting strings apart ---------- */

  /** `s` without `prefix`, when it starts with it. */
  function TrimPrefix(s: string, prefix: string): (r: Option<string>)
    ensures r.Some? <==> HasPrefix(s, prefix)
    ensures r.Some? ==> s == prefix + r.value
  {
    if HasPrefix(s, prefix) then
      assert s == s[..|prefix|] + s[|prefix|..];
      Some(s[|prefix|..])
    else None
  }

  /** `s` without `suffix`, when it ends with it. */
  function TrimSuffix(s: string, suffix: string): (r: Option<string>)
    ensures r.Some? <==> HasSuffix(s, suffix)
    ensures r.Some? ==> s == r.value + suffix
  {
    if HasSuffix(s, suffix) then
      assert s == s[..|s| - |suffix|] + s[|s| - |suffix|..];
      Some(s[..|s| - |suffix|])
    else None
  }

  lemma TrimPrefixOf(prefix: string, x: string)
    ensures TrimPrefix(prefix + x, prefix) == Some(x)
  {
    assert (prefix + x)[..|prefix|] == prefix;
    assert (prefix + x)[|prefix|..] == x;
  }

  lemma TrimSuffixOf(x: string, suffix: string)
    ensures TrimSuffix(x + suffix, suffix) == Some(x)
  {
    var s := x + suffix;
    assert s[|s| - |suffix|..] == suffix;
    assert s[..|s| - |suffix|] == x;
  }

  /** `s` split around the first `c`. */
  function CutFirst(s: string, c: char): (r: Option<(string, string)>)
    ensures r.Some? ==> s == r.value.0 + [c] + r.value.1 && c !in r.value.0
    ensures r.None? ==> c !in s
  {
    match IndexOfChar(s, c)
    case None => None
    case Some(i) =>
      assert s == s[..i] + [c] + s[i + 1..];
      Some((s[..i], s[i + 1..]))
  }

  /** `s` split around the last `c`. */
  function CutLast(s: string, c: char): (r: Option<(string, string)>)
    ensures r.Some? ==> s == r.value.0 + [c] + r.value.1 && c !in r.value.1
    ensures r.None? ==> c !in s
  {
    match LastIndexOfChar(s, c)
    case None => None
    case Some(i) =>
      assert s == s[..i] + [c] + s[i + 1..];
      Some((s[..i], s[i + 1..]))
  }

  lemma CutFirstAt(a: string, c: char, b: string)
    requires c !in a
    ensures CutFirst(a + [c] + b, c) == Some((a, b))
  {
    var s := a + [c] + b;
    IndexOfCharAfter(a, c, b);
    assert s[..|a|] == a;
    assert s[|a| + 1..] == b;
  }

  lemma CutLastAt(a: string, c: char, b: string)
    requires c !in b
    ensures CutLast(a + [c] + b, c) == Some((a, b))
  {
    var s := a + [c] + b;
    LastIndexOfCharBefore(a, c, b);
    assert s[..|a|] == a;
    assert s[|a| + 1..] == b;
  }

  /* ---------- strings.Replace(s, old, "", -1) for a one-character old ---------- */

  /** `s` with every occurrence of `c` removed. */
  function RemoveChar(s: string, c: char): (r: string)
    ensures c !in r
    ensures |r| <= |s|
    ensures c !in s ==> r == s
  {
    if s == [] then []
    else if s[0] == c then RemoveChar(s[1..], c)
    else [s[0]] + RemoveChar(s[1..], c)
  }

  /** Removal works piecewise: it distributes over concatenation, so with the
      one-character cases it determines RemoveChar completely. */
  lemma {:induction false} RemoveCharAppend(a: string, b: string, c: char)
    ensures RemoveChar(a + b, c) == RemoveChar(a, c) + RemoveChar(b, c)
    decreases |a|
  {
    if a == [] {
      assert a + b == b;
    } else {
      assert (a + b)[0] == a[0];
      assert (a + b)[1..] == a[1..] + b;
      RemoveCharAppend(a[1..], b, c);
    }
  }

  /** Removing `c` takes out exactly the occurrences of `c`: every other
      character keeps its number of occurrences. */
  lemma {:induction false} RemoveCharCounts(s: string, c: char)
    ensures multiset(RemoveChar(s, c)) == multiset(s)[c := 0]
    decreases |s|
  {
    if s != [] {
      RemoveCharCounts(s[1..], c);
      assert s == [s[0]] + s[1..];
      assert multiset(s) == multiset{s[0]} + multiset(s[1..]);
    }
  }

  /* ---------- fmt's %d verb and its inverse ---------- */

  predicate IsDigit(c: char) {
    '0' <= c <= '9'
  }

  function DigitChar(d: nat): (c: char)
    requires d < 10
    ensures IsDigit(c)
  {
    "0123456789"[d]
  }

  function DigitValue(c: char): (d: nat)
    requires IsDigit(c)
    ensures d < 10
  {
    c as int - '0' as int
  }

  predicate AllDigits(s: string) {
    forall i :: 0 <= i < |s| ==> IsDigit(s[i])
  }

  /** Decimal digits of `n` without leading zeros. */
  function FormatNat(n: nat): (r: string)
    ensures |r| > 0 && AllDigits(r)
    decreases n
  {
    if n < 10 then [DigitChar(n)] else FormatNat(n / 10) + [DigitChar(n % 10)]
  }

  /** The value of a string of decimal digits, most significant first. */
  function DigitsValue(s: string): nat
    requires AllDigits(s)
  {
    if s == [] then 0 else 10 * DigitsValue(s[..|s| - 1]) + DigitValue(s[|s| - 1])
  }

  /** `%d` formatting of an integer: a minus sign for negatives, then digits. */
  function FormatInt(n: int): (r: string)
    ensures |r| > 0
    ensures (r[0] == '-') <==> n < 0
  {
    if n < 0 then "-" + FormatNat(-n) else FormatNat(n)
  }

  /** Reads back what FormatInt writes; anything else is rejected. */
  function ParseInt(s: string): Option<int> {
    if |s| > 0 && s[0] == '-' then
      (if |s| > 1 && AllDigits(s[1..]) then Some(0 - DigitsValue(s[1..]) as int) else None)
    else if |s| > 0 && AllDigits(s) then Some(DigitsValue(s))
    else None
  }

  lemma {:induction false} DigitsValueFormatNat(n: nat)
    ensures DigitsValue(FormatNat(n)) == n
    decreases n
  {
    var f := FormatNat(n);
    if n < 10 {
      assert f[..0] == [];
      assert DigitValue(DigitChar(n)) == n by {
        assert "0123456789"[n] as int - '0' as int == n;
      }
    } else {
      DigitsValueFormatNat(n / 10);
      assert f[..|f| - 1] == FormatNat(n / 10);
      assert DigitValue(DigitChar(n % 10)) == n % 10 by {
        assert "0123456789"[n % 10] as int - '0' as int == n % 10;
      }
    }
  }

  lemma ParseUnsigned(f: string)
    requires |f| > 0 && AllDigits(f)
    ensures ParseInt(f) == Some(DigitsValue(f) as int)
  {
    assert IsDigit(f[0]);
  }

  lemma ParseSigned(f: string)
    requires |f| > 0 && AllDigits(f)
    ensures ParseInt("-" + f) == Some(0 - DigitsValue(f) as int)
  {
    assert ("-" + f)[1..] == f;
  }

  /** `%d` loses nothing: the integer can be read back from its text. */
  lemma FormatIntRoundTrip(n: int)
    ensures ParseInt(FormatInt(n)) == Some(n)
  {
    if n < 0 {
      var m: nat := -n;
      var f := FormatNat(m);
      assert FormatInt(n) == "-" + f;
      DigitsValueFormatNat(m);
      ParseSigned(f);
    } else {
      var f := FormatNat(n);
      assert FormatInt(n) == f;
      DigitsValueFormatNat(n);
      ParseUnsigned(f);
    }
  }
}
